=== FILE: README.md ===
# StegoDisk: FUSE request gating and carrier-file selection

StegoDisk hides a block-addressable virtual disk inside ordinary image files.
This project models two small pieces of it in Dafny and proves properties of them.

**The FUSE callbacks** (`src/fuse/fuse_service.cc`). StegoDisk's FUSE callbacks show
the user a namespace with two entries: a root directory and one file,
`/virtualdisc.iso`. That file's size is the capacity of the virtual storage.

- **Read and write.** `sfs_read` and `sfs_write` reject every other path. They
  answer 0 at or past the end of the file. Otherwise they trim the request to the
  file and forward it to `VirtualStorage::Read` or `VirtualStorage::Write`, then
  turn the storage's error code into their return value.
- **getattr and readdir.** `sfs_getattr` and `sfs_readdir` describe the namespace.
- **Fixed-code callbacks.** Every other callback answers with a fixed code.

**The carrier-file factory** (`src/carrier_files/carrier_file_factory.cc`).
`CreateCarrierFile` picks the BMP or JPEG carrier variant by exact extension. It
builds the variant with the configured permutation and no encoder. It declines a
carrier whose raw capacity is below 1.

Modelling choices:

- **Fixed-width integers.** The C++ integer types (`src/utils/stego_types.h`)
  become newtypes in module `StegoTypes`. Every conversion the callbacks perform
  is written out, and each is characterised as "the value of the target type
  congruent to the input modulo 2^width". The conversions are:
  - `off_t` to `uint64`;
  - the wrapping 64-bit sum `offset64 + size64`;
  - `static_cast<uint32>`;
  - `static_cast<int>`;
  - `uint64` capacity into `st_size`.
- **Path comparison.** `strcmp` is modelled on NUL-terminated buffers (module
  `CStrings`). A callback matches a path when the string the buffer denotes equals
  the served path.
- **Global state.** The callbacks' globals `FuseService::capacity_` and
  `virtual_storage_` become parameters. The storage is an oracle
  `StorageCall -> int32` that gives the error code storage returns for a
  forwarded request, with 0 meaning success.
- **Platform.** The model follows the Linux build: path `/virtualdisc.iso`,
  `ENOENT` = 2, `ENOMEM` = 12, `EROFS` = 30, `ENOSYS` = 38.
- **Carrier capacity.** Each variant's raw capacity is an oracle
  `CarrierKind -> uint64`. The configured permutation setting is a type parameter.
- **Code as written.** The callbacks are modelled exactly as the code behaves,
  including three behaviours that look unintended (see "## Findings"). The
  corrected behaviour is modelled alongside, in module `FuseFindings`.

## Model

| member | source | states |
|---|---|---|
| StegoTypes.Int64ToUint64 | src/fuse/fuse_service.cc:335 | converting the signed `off_t` offset to `uint64` keeps non-negative offsets and sends negative ones to 2^63 or above (congruent modulo 2^64) |
| StegoTypes.AddWrap64 | src/fuse/fuse_service.cc:345 | the 64-bit end-of-request sum is exact when it fits and otherwise wraps to a value below both operands |
| StegoTypes.TruncateToUint32 | src/fuse/fuse_service.cc:353-355 | the cast to the storage's 32-bit size never grows the size and keeps it unchanged below 2^32 |
| StegoTypes.Uint64ToInt32 | src/fuse/fuse_service.cc:362 | the `int` the callbacks return for a size is that size whenever it is below 2^31 (congruent modulo 2^32 otherwise) |
| StegoTypes.Uint64ToInt64 | src/fuse/fuse_service.cc:268 | `st_size` equals the capacity when it is below 2^63 and is negative otherwise |
| CStrings.CString | src/fuse/fuse_service.cc:332 | the string a path buffer denotes is the NUL-free prefix that ends at the first NUL or at the buffer's end |
| CStrings.StrCmp | src/fuse/fuse_service.cc:332-333 | `strcmp` answers 0 exactly when the two buffers denote the same string |
| FuseService.Matches | src/fuse/fuse_service.cc:244 | a callback's path test succeeds exactly when the path names the served path |
| FuseService.ServedPaths | src/fuse/fuse_service.cc:42-43 | the root and the file path are distinct, NUL-free strings that denote themselves |
| FuseService.Getattr | src/fuse/fuse_service.cc:259-274 | the root's mode is exactly `S_IFDIR` with permission bits 0755 (no setuid, setgid or sticky bit, nothing above the file type) and it has 3 links; the virtual file's mode is exactly `S_IFREG` with permission bits 0777, it has 1 link, and its size equals the capacity when the capacity is below 2^63 (congruent to it modulo 2^64 otherwise); any other path gets -ENOENT and a zeroed stat |
| FuseService.Readdir | src/fuse/fuse_service.cc:241-257 | only the root can be listed, and it holds exactly ".", ".." and the virtual file's name, in that order; other paths get -ENOENT and no entries |
| FuseService.ListedFileHasAttributes | src/fuse/fuse_service.cc:252-268 | the one name the root lists besides "." and ".." is, prefixed with "/", a regular file that getattr accepts, whose size is the capacity when the capacity is below 2^63 |
| FuseService.Access | src/fuse/fuse_service.cc:276-278 | every access check succeeds |
| FuseService.Readlink | src/fuse/fuse_service.cc:280-282 | reading a link always fails with -ENOSYS |
| FuseService.Mkdir | src/fuse/fuse_service.cc:284-286 | making a directory always fails with -EROFS |
| FuseService.Unlink | src/fuse/fuse_service.cc:288-291 | unlinking always reports success |
| FuseService.Rmdir | src/fuse/fuse_service.cc:293-295 | removing a directory always fails with -EROFS |
| FuseService.Rename | src/fuse/fuse_service.cc:296-298 | renaming always fails with -EROFS |
| FuseService.Chmod | src/fuse/fuse_service.cc:300-302 | changing the mode always reports success |
| FuseService.Chown | src/fuse/fuse_service.cc:303-305 | changing the owner always reports success |
| FuseService.Open | src/fuse/fuse_service.cc:312-322 | opening succeeds for every path |
| FuseService.Create | src/fuse/fuse_service.cc:324-326 | create answers what open answers, which is success |
| FuseService.OpenIgnoresNamespace | src/fuse/fuse_service.cc:312-326 | a path that getattr rejects with -ENOENT still opens and can be created; the fixed-code callbacks never answer -ENOENT |
| FuseService.TrimmedSize | src/fuse/fuse_service.cc:345-355 | the forwarded size never exceeds the request. Without a wrapping sum it keeps the range inside the file. A request past the end is cut to exactly the rest of the file when the sum does not wrap; any other request, a wrapping one included, is passed on unchanged (both up to the 32-bit cast) |
| FuseService.PlanTransfer | src/fuse/fuse_service.cc:332-355 | a foreign path is answered -ENOENT and an offset at or past the capacity is answered 0, both without calling storage. Any other request is forwarded at its own offset, which lies before the capacity, with a size no larger than the request |
| FuseService.TransferReply | src/fuse/fuse_service.cc:357-363 | a storage success returns the requested (untrimmed) size when it is below 2^31, and that size modulo 2^32 as a signed `int` otherwise; a storage failure returns positive ENOMEM |
| FuseService.SfsRead | src/fuse/fuse_service.cc:329-364 | `sfs_read`: storage is never called for a foreign path or at or past the end of the file. Any other request is forwarded at its own offset with exactly the size `TrimmedSize` gives; that call starts inside the file, asks for no more than requested, and without a wrapping sum stays inside the file. On success it returns the requested size when that is below 2^31 (the size modulo 2^32 as a signed `int` otherwise); on failure it returns +ENOMEM |
| FuseService.SfsWrite | src/fuse/fuse_service.cc:366-401 | `sfs_write`: the same gating, trimming and reply as `sfs_read`, against the write oracle |
| FuseService.ReadStopsAtReportedSize | src/fuse/fuse_service.cc:265-343 | for a non-negative offset and a capacity below 2^63, reading calls storage exactly when the offset is before the file size getattr reports |
| FuseService.ReadAndWriteForwardAlike | src/fuse/fuse_service.cc:329-401 | read and write forward the same storage request for the same path, offset and size |
| FuseFindings.WrappedSumSkipsTrim | src/fuse/fuse_service.cc:345-350 | as written, offset 1 and size 2^64-1 on a 10-byte file forward (1, 2^32-1), which reaches past the end |
| FuseFindings.ReadReportsUntrimmedSize | src/fuse/fuse_service.cc:345-363 | as written, reading 10 bytes at 98 of a 100-byte file fetches 2 bytes and returns 10 |
| FuseFindings.FailedReadLooksLikeSuccess | src/fuse/fuse_service.cc:357-363 | as written, a failed 12-byte read or write returns the same 12 as a successful one |
| FuseFindings.TrimmedSizeChecked | src/fuse/fuse_service.cc:345-350 | corrected trim: for every input the forwarded range lies inside the file and no larger than the request. A request past the end is cut to the rest of the file (exactly, when the rest is below 2^32; modulo 2^32 otherwise), and any other request passes unchanged (exactly below 2^32; modulo 2^32 otherwise) |
| FuseFindings.TrimmedSizeCheckedAgrees | src/fuse/fuse_service.cc:345-355 | the corrected trim equals the trim as written whenever the 64-bit sum does not wrap |
| FuseFindings.PlanTransferChecked | src/fuse/fuse_service.cc:332-355 | corrected plan: the same path gate and end-of-file answer; every in-file request is forwarded at its own offset with exactly the size `TrimmedSizeChecked` gives, and every forwarded range lies inside the file for all inputs |
| FuseFindings.PlanTransferCheckedAgrees | src/fuse/fuse_service.cc:332-355 | the corrected plan is the plan as written whenever the 64-bit sum does not wrap |
| FuseFindings.SfsReadChecked | src/fuse/fuse_service.cc:329-364 | corrected read: the same path gate and end-of-file answer; an in-file request on the served path is always forwarded, at its own offset, with exactly the size `TrimmedSizeChecked` gives, no larger than requested, and the forwarded range lies in the file for every input; success returns the bytes actually forwarded (below 2^31), and failure returns -ENOMEM |
| FuseFindings.SfsWriteChecked | src/fuse/fuse_service.cc:366-401 | corrected write: the same path gate and end-of-file answer; an in-file request on the served path is always forwarded, at its own offset, with exactly the size `TrimmedSizeChecked` gives, no larger than requested, and the forwarded range lies in the file for every input; success acknowledges the requested size (below 2^31), and failure returns -ENOMEM |
| FuseFindings.CorrectedReadReportsTrimmedSize | src/fuse/fuse_service.cc:345-363 | corrected, reading 10 bytes at 98 of a 100-byte file fetches 2 bytes and reports 2 |
| FuseFindings.SfsReadCheckedAgrees | src/fuse/fuse_service.cc:329-364 | on requests without a wrapping sum and below 2^31 bytes, the corrected read forwards what `sfs_read` forwards. Its reply matches exactly when storage succeeded and nothing was trimmed |
| FuseFindings.SfsWriteCheckedAgrees | src/fuse/fuse_service.cc:366-401 | without a wrapping sum, the corrected write forwards what `sfs_write` forwards, and its reply differs exactly on storage failure |
| CarrierFileFactory.SelectVariant | src/carrier_files/carrier_file_factory.cc:26-37 | a variant is selected only by its own extension, and an extension that belongs to no variant selects nothing |
| CarrierFileFactory.SelectVariantInvertsExtension | src/carrier_files/carrier_file_factory.cc:27-32 | ".bmp" selects BMP and ".jpg" selects JPEG, by exact comparison: a variant is selected if and only if the extension is exactly its own |
| CarrierFileFactory.CreateCarrierFile | src/carrier_files/carrier_file_factory.cc:23-46 | a carrier is returned if and only if the extension is one of the two and that variant's raw capacity is at least 1. It has that variant and raw capacity, the configured permutation and no encoder |
| CarrierFileFactory.RejectsOtherExtensions | src/carrier_files/carrier_file_factory.cc:26-45 | ".jpeg", ".BMP", ".JPG", "bmp" and the empty extension yield no carrier |
| CarrierFileFactory.RejectsEmptyCarrier | src/carrier_files/carrier_file_factory.cc:39-43 | a carrier with zero raw capacity is never returned |
| CarrierFileFactory.DependsOnlyOnSelectedVariant | src/carrier_files/carrier_file_factory.cc:23-46 | two capacity oracles that agree on the selected variant give the same result |

## Left out

- `FuseService::MountFuse` and `FuseService::unmountFuse` are left out. They are process plumbing: `fork`, `fuse_main`, `waitpid` and `_exit`.
- Signal handling is left out because it is inter-process signalling. This covers:
  - `fuseSignalHandler`, `fuseSigChldSignalHandler` and `fuseInitialisedSignalHandler`;
  - `QtConcurrent::run`;
  - the `kill(getppid(), …)` calls in `sfs_readdir` and `sfs_destroy`;
  - the `fuse_mounted_` flag that `sfs_readdir` sets before signalling.
- `attachVirtualDisk` is left out because it runs the external `hdiutil` process.
- `sfs_init` and `sfs_destroy` are left out: they only log and signal.
- `FuseService::Init` is left out: it only fills the FUSE operations table. The capacity and storage it caches are parameters here.
- Logging is left out.
- `VirtualStorage::Read` and `VirtualStorage::Write` are not part of this model. Their error code is an oracle. The bytes moved through `buf` are not modelled.
- `File::GetExtension` is not part of this model; the extension is an input.
- `CarrierFileBMP` and `CarrierFileJPEG` are not part of this model. Their raw capacity is an oracle, and possible failures while constructing them are not modelled.
- `PermutationFactory` and `StegoConfig` are not part of this model. The permutation is recorded as the configured setting it is built from.
- The second `nullptr` constructor argument is not modelled, because the variants' constructor signatures are not part of this model. The first `nullptr`, the encoder, is recorded as no encoder.
- The macOS build is left out. It differs in the file name (`/virtualdisc.dmg`) and in errno numbering (`ENOSYS` is 78 there).
- Characters are compared as Unicode code points, not as unsigned C bytes. Only whether `strcmp` returns zero is used, so this does not change any result.

## Findings

| source | as written | input that shows it | evidently intended | confidence | as-written member | corrected member |
|---|---|---|---|---|---|---|
| src/fuse/fuse_service.cc:345-350 | `offset64 + size64 > capacity_` is computed in 64 bits. When the sum wraps, the trim is skipped and storage gets a range past the end of the file (same at lines 382-387). | offset 1, size 2^64-1, capacity 10: storage is asked for (1, 2^32-1) | trim whenever the request runs past the end, e.g. `size64 > capacity_ - offset64` | not executed; the kernel never issues such a size, so only a direct caller can reach it | FuseFindings.WrappedSumSkipsTrim | FuseFindings.TrimmedSizeChecked |
| src/fuse/fuse_service.cc:361-363 | `sfs_read` returns the requested `size` even after trimming it | capacity 100, offset 98, size 10: 2 bytes are read and 10 is returned | return the number of bytes actually read (2): the comment at line 345 says the read is trimmed to the file size, and a FUSE read callback returns the number of bytes read, a short count marking the end of the file | not executed; high | FuseFindings.ReadReportsUntrimmedSize | FuseFindings.SfsReadChecked, FuseFindings.CorrectedReadReportsTrimmedSize |
| src/fuse/fuse_service.cc:357-360 | a storage failure returns positive `ENOMEM`, which FUSE takes as a count of 12 bytes (same at lines 394-397) | size 12 with a failing storage returns 12, the same as a successful 12-byte read or write | return `-ENOMEM`, as every other error path in the file does | not executed; high | FuseFindings.FailedReadLooksLikeSuccess | FuseFindings.SfsReadChecked, FuseFindings.SfsWriteChecked |

The callbacks `FuseService.SfsRead` and `FuseService.SfsWrite` model the code as
written. `FuseFindings.SfsReadCheckedAgrees` and `FuseFindings.SfsWriteCheckedAgrees`
relate the corrected callbacks to them:

- Whenever the 64-bit sum does not wrap, both forward the same storage request.
- For a read of fewer than 2^31 bytes, the replies are equal exactly when storage
  succeeded and nothing was trimmed.
- For a write, the replies are equal exactly when storage succeeded.

`FuseFindings.SfsReadChecked` corrects all three findings.

=== FILE: c_strings.dfy ===
/**
 NUL-terminated character buffers and `strcmp`, which the FUSE callbacks use to
 recognise the paths they serve. A buffer without a NUL is read up to its end.
 */
module CStrings {

  /** The string a buffer denotes: its characters before the first NUL. */
  function CString(s: seq<char>): (t: seq<char>)
    ensures '\0' !in t
    ensures t <= s
    ensures |t| < |s| ==> s[|t|] == '\0'
  {
    if |s| == 0 || s[0] == '\0' then [] else [s[0]] + CString(s[1..])
  }

  /** A buffer with no NUL in it denotes all of its characters. */
  lemma CStringOfNulFree(s: seq<char>)
    requires '\0' !in s
    ensures CString(s) == s
  {
  }

  /** The character code strcmp sees at the head of a buffer (the end reads as NUL). */
  function Head(s: seq<char>): int
  {
    if |s| == 0 then 0 else s[0] as int
  }

  /** Two sequences with the same first element are equal exactly when their tails are. */
  lemma ConsEqual(c: char, a: seq<char>, b: seq<char>)
    ensures [c] + a == [c] + b <==> a == b
  {
    if [c] + a == [c] + b {
      assert a == ([c] + a)[1..];
      assert b == ([c] + b)[1..];
    }
  }

  /**
   `strcmp(a, b)`: walks both buffers while the characters agree and neither has
   ended; the sign of the first difference orders them.
   */
  function StrCmp(a: seq<char>, b: seq<char>): (r: int)
    ensures r == 0 <==> CString(a) == CString(b)
    decreases |a|
  {
    var ca := Head(a);
    var cb := Head(b);
    if ca != cb then
      assert CString(a) == [] || CString(b) == [] || CString(a)[0] != CString(b)[0];
      ca - cb
    else if ca == 0 then
      0
    else
      ConsEqual(a[0], CString(a[1..]), CString(b[1..]));
      StrCmp(a[1..], b[1..])
  }
}

=== FILE: carrier_file_factory.dfy ===
/**
 CarrierFileFactory::CreateCarrierFile: picks the carrier variant from the
 file's extension, builds it with the configured permutation and no encoder,
 and declines files that cannot hold a single unit.

 What the variants compute is outside this model: `rawCapacity(kind)` stands for
 the raw capacity the variant `kind` reports for the candidate file, and the
 permutation is recorded as the configured `local_perm` setting `P` it is built
 from.
 */
module CarrierFileFactory {
  import opened StegoTypes
  import opened Wrappers

  datatype CarrierKind = Bmp | Jpeg

  /** The carrier file the factory hands out. */
  datatype CarrierDescriptor<P> = CarrierDescriptor(
    kind: CarrierKind,
    permutation: P,        // built from StegoConfig::local_perm()
    encoderAttached: bool, // false: the encoder is passed as nullptr
    rawCapacity: uint64)

  /** The extension that selects each variant. */
  function Extension(kind: CarrierKind): string
  {
    match kind
    case Bmp => ".bmp"
    case Jpeg => ".jpg"
  }

  /** The variant an extension selects: an exact, case-sensitive comparison. */
  function SelectVariant(ext: string): (k: Option<CarrierKind>)
    ensures k.Some? ==> Extension(k.value) == ext
    ensures k.None? ==> forall kind: CarrierKind :: Extension(kind) != ext
  {
    if ext == ".bmp" then Some(Bmp)
    else if ext == ".jpg" then Some(Jpeg)
    else None
  }

  /** Selection and Extension are inverse: each variant is chosen by its own extension and by no other. */
  lemma SelectVariantInvertsExtension(kind: CarrierKind, ext: string)
    ensures SelectVariant(Extension(kind)) == Some(kind)
    ensures SelectVariant(ext) == Some(kind) <==> ext == Extension(kind)
    ensures forall other: CarrierKind :: other != kind ==> Extension(other) != Extension(kind)
  {
  }

  /** `CarrierFileFactory::CreateCarrierFile`. */
  function CreateCarrierFile<P>(ext: string, localPerm: P, rawCapacity: CarrierKind -> uint64)
    : (r: Option<CarrierDescriptor<P>>)
    ensures r.Some? <==> exists kind: CarrierKind :: ext == Extension(kind) && rawCapacity(kind) >= 1
    ensures r.Some? ==>
      && Extension(r.value.kind) == ext
      && r.value.rawCapacity == rawCapacity(r.value.kind)
      && r.value.rawCapacity >= 1
      && r.value.permutation == localPerm
      && !r.value.encoderAttached
  {
    var carrier :=
      match SelectVariant(ext)
      case Some(kind) => Some(CarrierDescriptor(kind, localPerm, false, rawCapacity(kind)))
      case None => None;
    if carrier.Some? && carrier.value.rawCapacity < 1 then None else carrier
  }

  /** Near misses of the two extensions select nothing. */
  lemma RejectsOtherExtensions<P>(localPerm: P, rawCapacity: CarrierKind -> uint64)
    ensures CreateCarrierFile(".jpeg", localPerm, rawCapacity).None?
    ensures CreateCarrierFile(".BMP", localPerm, rawCapacity).None?
    ensures CreateCarrierFile(".JPG", localPerm, rawCapacity).None?
    ensures CreateCarrierFile("bmp", localPerm, rawCapacity).None?
    ensures CreateCarrierFile("", localPerm, rawCapacity).None?
  {
  }

  /** A carrier whose variant reports no raw capacity is never handed out. */
  lemma RejectsEmptyCarrier<P>(ext: string, localPerm: P, rawCapacity: CarrierKind -> uint64)
    requires forall kind: CarrierKind :: rawCapacity(kind) == 0
    ensures CreateCarrierFile(ext, localPerm, rawCapacity).None?
  {
  }

  /**
   The result depends only on the extension, the configured permutation and the
   raw capacity of the variant the extension selects.
   */
  lemma DependsOnlyOnSelectedVariant<P>(ext: string, localPerm: P,
                                         capA: CarrierKind -> uint64, capB: CarrierKind -> uint64)
    requires forall kind: CarrierKind :: ext == Extension(kind) ==> capA(kind) == capB(kind)
    ensures CreateCarrierFile(ext, localPerm, capA) == CreateCarrierFile(ext, localPerm, capB)
  {
  }
}

=== FILE: fuse_findings.dfy ===
/**
 Three places where `sfs_read` / `sfs_write` as written do not do what their own
 comments and the FUSE callback conventions call for, each shown on a concrete
 request, together with the corrected callbacks and what is proved about them.

 1. The end-of-request test sums offset and size in 64 bits; when the sum wraps
    the trim is skipped and storage is asked for bytes past the end of the file.
 2. `sfs_read` returns the requested size even when it trimmed the request, so
    the caller is told more bytes were read than storage produced.
 3. A storage failure is returned as positive ENOMEM, which FUSE reads as a byte
    count (12), not as an error.
 */
module FuseFindings {
  import opened StegoTypes
  import opened Wrappers
  import opened FuseService

  const MAX_UINT64: uint64 := 0xFFFF_FFFF_FFFF_FFFF

  /** Storage that accepts every request. */
  function Succeeds(c: StorageCall): int32 { 0 }

  /** Storage that fails every request. */
  function Fails(c: StorageCall): int32 { 1 }

  // ---------------------------------------------------------------------------
  // The code as written
  // ---------------------------------------------------------------------------

  /** Finding 1: offset 1, size 2^64 - 1 against a 10-byte file reaches storage past the end. */
  lemma WrappedSumSkipsTrim()
    ensures var p := PlanTransfer(FilePath, MAX_UINT64, 1, 10);
      && p == Forward(StorageCall(1, 0xFFFF_FFFF))
      && p.call.offset as int + p.call.size as int > 10
  {
  }

  /** Finding 2: reading 10 bytes two bytes before the end of a 100-byte file fetches 2 bytes and reports 10. */
  lemma ReadReportsUntrimmedSize()
    ensures var r := SfsRead(FilePath, 10, 98, 100, Succeeds);
      r.forwarded == Some(StorageCall(98, 2)) && r.ret == 10
  {
  }

  /** Finding 3: a failed 12-byte read returns the same code as a successful one. */
  lemma FailedReadLooksLikeSuccess()
    ensures SfsRead(FilePath, 12, 0, 100, Fails).ret == SfsRead(FilePath, 12, 0, 100, Succeeds).ret == 12
    ensures SfsWrite(FilePath, 12, 0, 100, Fails).ret == SfsWrite(FilePath, 12, 0, 100, Succeeds).ret == 12
  {
  }

  // ---------------------------------------------------------------------------
  // The corrected callbacks
  // ---------------------------------------------------------------------------

  /** Corrects finding 1: compares the size with the room left, which cannot overflow. */
  function TrimmedSizeChecked(offset64: uint64, size: uint64, capacity: uint64): (t: uint32)
    requires offset64 < capacity
    ensures t as int <= size as int
    ensures offset64 as int + t as int <= capacity as int
    ensures size as int > capacity as int - offset64 as int && capacity as int - offset64 as int < TWO_32 ==>
      t as int == capacity as int - offset64 as int
    ensures size as int <= capacity as int - offset64 as int && size as int < TWO_32 ==>
      t as int == size as int
    // a rest or a request of 2^32 bytes or more is cut by the 32-bit cast
    ensures size as int > capacity as int - offset64 as int ==>
      (capacity as int - offset64 as int - t as int) % TWO_32 == 0
    ensures size as int <= capacity as int - offset64 as int ==> (size as int - t as int) % TWO_32 == 0
  {
    var room := capacity - offset64;
    TruncateToUint32(if size > room then room else size)
  }

  /** The corrected trim differs from the one as written only when `offset64 + size` wraps. */
  lemma TrimmedSizeCheckedAgrees(offset64: uint64, size: uint64, capacity: uint64)
    requires offset64 < capacity && NoWrap(offset64, size)
    ensures TrimmedSizeChecked(offset64, size, capacity) == TrimmedSize(offset64, size, capacity)
  {
  }

  /** The corrected plan: the same gate and end-of-file test, with the checked trim. */
  function PlanTransferChecked(path: string, size: uint64, offset: int64, capacity: uint64): (p: Plan)
    ensures !Names(path, FilePath) ==> p == Answer(-ENOENT)
    ensures Names(path, FilePath) && Int64ToUint64(offset) >= capacity ==> p == Answer(0)
    ensures Names(path, FilePath) && Int64ToUint64(offset) < capacity ==>
      p == Forward(StorageCall(Int64ToUint64(offset), TrimmedSizeChecked(Int64ToUint64(offset), size, capacity)))
    ensures p.Forward? ==>
      && p.call.offset == Int64ToUint64(offset)
      && p.call.size as int <= size as int
      && p.call.offset as int + p.call.size as int <= capacity as int
  {
    if !Matches(path, FilePath) then
      Answer(-ENOENT)
    else
      var offset64 := Int64ToUint64(offset);
      if offset64 >= capacity then Answer(0)
      else
        Forward(StorageCall(offset64, TrimmedSizeChecked(offset64, size, capacity)))
  }

  /** Without a wrapping sum, the corrected plan is the plan as written. */
  lemma PlanTransferCheckedAgrees(path: string, size: uint64, offset: int64, capacity: uint64)
    requires NoWrap(Int64ToUint64(offset), size)
    ensures PlanTransferChecked(path, size, offset, capacity) == PlanTransfer(path, size, offset, capacity)
  {
  }

  /**
   `sfs_read` corrected for findings 1 to 3: the forwarded range always lies in
   the file, success reports the bytes storage actually read, failure is
   negative.
   */
  function SfsReadChecked(path: string, size: uint64, offset: int64, capacity: uint64,
                          read: StorageCall -> int32): (r: IoOutcome)
    ensures !Names(path, FilePath) ==> r == IoOutcome(None, -ENOENT)
    ensures Names(path, FilePath) && Int64ToUint64(offset) >= capacity ==> r == IoOutcome(None, 0)
    ensures Names(path, FilePath) && Int64ToUint64(offset) < capacity ==>
      r.forwarded == Some(StorageCall(Int64ToUint64(offset), TrimmedSizeChecked(Int64ToUint64(offset), size, capacity)))
    ensures r.forwarded.Some? ==>
      && r.forwarded.value.offset == Int64ToUint64(offset)
      && r.forwarded.value.size as int <= size as int
      && r.forwarded.value.offset as int + r.forwarded.value.size as int <= capacity as int
    ensures r.forwarded.Some? && read(r.forwarded.value) == 0 && r.forwarded.value.size as int < TWO_31 ==>
      r.ret as int == r.forwarded.value.size as int
    ensures r.forwarded.Some? && read(r.forwarded.value) != 0 ==> r.ret == -ENOMEM && r.ret < 0
  {
    match PlanTransferChecked(path, size, offset, capacity)
    case Answer(ret) => IoOutcome(None, ret)
    case Forward(call) =>
      IoOutcome(Some(call), if read(call) != 0 then -ENOMEM else Uint64ToInt32(call.size as int as uint64))
  }

  /** Finding 2 corrected: the read of ReadReportsUntrimmedSize fetches 2 bytes and reports 2. */
  lemma CorrectedReadReportsTrimmedSize()
    ensures SfsReadChecked(FilePath, 10, 98, 100, Succeeds) == IoOutcome(Some(StorageCall(98, 2)), 2)
  {
  }

  /**
   `sfs_write` corrected for findings 1 and 3. A write running past the end is
   still acknowledged in full: the part beyond the file is dropped silently.
   */
  function SfsWriteChecked(path: string, size: uint64, offset: int64, capacity: uint64,
                           write: StorageCall -> int32): (r: IoOutcome)
    ensures !Names(path, FilePath) ==> r == IoOutcome(None, -ENOENT)
    ensures Names(path, FilePath) && Int64ToUint64(offset) >= capacity ==> r == IoOutcome(None, 0)
    ensures Names(path, FilePath) && Int64ToUint64(offset) < capacity ==>
      r.forwarded == Some(StorageCall(Int64ToUint64(offset), TrimmedSizeChecked(Int64ToUint64(offset), size, capacity)))
    ensures r.forwarded.Some? ==>
      && r.forwarded.value.offset == Int64ToUint64(offset)
      && r.forwarded.value.size as int <= size as int
      && r.forwarded.value.offset as int + r.forwarded.value.size as int <= capacity as int
    ensures r.forwarded.Some? && write(r.forwarded.value) == 0 && size as int < TWO_31 ==>
      r.ret as int == size as int
    ensures r.forwarded.Some? && write(r.forwarded.value) != 0 ==> r.ret == -ENOMEM && r.ret < 0
  {
    match PlanTransferChecked(path, size, offset, capacity)
    case Answer(ret) => IoOutcome(None, ret)
    case Forward(call) =>
      IoOutcome(Some(call), if write(call) != 0 then -ENOMEM else Uint64ToInt32(size))
  }

  /**
   Without a wrapping sum and for a size below 2^31, the corrected read
   forwards what `sfs_read` forwards; the replies agree exactly when storage
   succeeds and nothing was trimmed.
   */
  lemma SfsReadCheckedAgrees(path: string, size: uint64, offset: int64, capacity: uint64,
                             read: StorageCall -> int32)
    requires NoWrap(Int64ToUint64(offset), size) && size as int < TWO_31
    ensures SfsReadChecked(path, size, offset, capacity, read).forwarded ==
            SfsRead(path, size, offset, capacity, read).forwarded
    ensures var r := SfsRead(path, size, offset, capacity, read);
      r.forwarded.Some? ==>
        (SfsReadChecked(path, size, offset, capacity, read).ret == r.ret <==>
           read(r.forwarded.value) == 0 && r.forwarded.value.size == size as int as uint32)
  {
  }

  /** The same for writes: only the sign of a failure changes. */
  lemma SfsWriteCheckedAgrees(path: string, size: uint64, offset: int64, capacity: uint64,
                              write: StorageCall -> int32)
    requires NoWrap(Int64ToUint64(offset), size)
    ensures SfsWriteChecked(path, size, offset, capacity, write).forwarded ==
            SfsWrite(path, size, offset, capacity, write).forwarded
    ensures var r := SfsWrite(path, size, offset, capacity, write);
      r.forwarded.Some? ==>
        (SfsWriteChecked(path, size, offset, capacity, write).ret == r.ret <==> write(r.forwarded.value) == 0)
  {
  }
}

=== FILE: fuse_service.dfy ===
/**
 The FUSE callbacks of the StegoDisk file system (Linux build): a read-only
 namespace holding the root directory and one file, "/virtualdisc.iso", whose
 size is the capacity of the virtual storage and whose bytes are read and written
 through that storage.

 The callbacks' global state is passed in explicitly: `capacity` is the value
 `FuseService::Init` caches from `VirtualStorage::GetUsableCapacity`, and the
 storage is an oracle answering a forwarded request with the error code that
 `VirtualStorage::Read` or `VirtualStorage::Write` returns (0 for success).
 */
module FuseService {
  import opened StegoTypes
  import opened Wrappers
  import CStrings

  // errno values of the Linux build
  const ENOENT: int32 := 2
  const ENOMEM: int32 := 12
  const EROFS: int32 := 30
  const ENOSYS: int32 := 38

  const RootPath: string := "/"
  const FilePath: string := "/virtualdisc.iso"
  /** The directory entry of the file: FilePath without its leading '/'. */
  const VirtualFileName: string := "virtualdisc.iso"

  /** The NUL-terminated buffer `path` names `target`. */
  ghost predicate Names(path: string, target: string)
  {
    CStrings.CString(path) == target
  }

  /** `strcmp(path, target) == 0`, the test every callback uses on its path. */
  function Matches(path: string, target: string): (b: bool)
    requires '\0' !in target
    ensures b <==> Names(path, target)
  {
    CStrings.CStringOfNulFree(target);
    CStrings.StrCmp(path, target) == 0
  }

  /** The two paths the file system serves contain no NUL and are distinct. */
  lemma ServedPaths()
    ensures '\0' !in RootPath && '\0' !in FilePath
    ensures CStrings.CString(RootPath) == RootPath && CStrings.CString(FilePath) == FilePath
    ensures RootPath != FilePath
  {
  }

  // ---------------------------------------------------------------------------
  // getattr and readdir: the shape of the namespace
  // ---------------------------------------------------------------------------

  const S_IFMT: bv32 := 0xF000
  const S_IFDIR: bv32 := 0x4000
  const S_IFREG: bv32 := 0x8000
  /** Octal 07777: the permission bits together with setuid, setgid and sticky. */
  const PERMISSION_BITS: bv32 := 0xFFF
  /** Octal 0755 and 0777. */
  const MODE_0755: bv32 := 0x1ED
  const MODE_0777: bv32 := 0x1FF

  /** The modes getattr builds carry the file type and the permissions they are built from. */
  lemma ModeBits()
    ensures ((S_IFDIR | MODE_0755) & S_IFMT) == S_IFDIR && ((S_IFDIR | MODE_0755) & PERMISSION_BITS) == MODE_0755
    ensures ((S_IFREG | MODE_0777) & S_IFMT) == S_IFREG && ((S_IFREG | MODE_0777) & PERMISSION_BITS) == MODE_0777
    ensures ((S_IFDIR | MODE_0755) & !(S_IFMT | PERMISSION_BITS)) == 0
    ensures ((S_IFREG | MODE_0777) & !(S_IFMT | PERMISSION_BITS)) == 0
  {
  }

  /** The fields of `struct stat` the callbacks fill in; `memset` zeroes the rest. */
  datatype Stat = Stat(mode: bv32, nlink: nat, size: int64)

  const ZeroStat: Stat := Stat(0, 0, 0)

  predicate IsDirectory(st: Stat)
  {
    (st.mode & S_IFMT) == S_IFDIR
  }

  predicate IsRegularFile(st: Stat)
  {
    (st.mode & S_IFMT) == S_IFREG
  }

  function Permissions(st: Stat): bv32
  {
    st.mode & PERMISSION_BITS
  }

  /** The mode holds nothing beyond the file type and the permission bits. */
  predicate NoOtherModeBits(st: Stat)
  {
    (st.mode & !(S_IFMT | PERMISSION_BITS)) == 0
  }

  /** The code `sfs_getattr` returns and the buffer it leaves behind. */
  datatype AttrReply = AttrReply(ret: int32, st: Stat)

  /** `sfs_getattr`: the root is a directory, the virtual file a regular file of `capacity` bytes. */
  function Getattr(path: string, capacity: uint64): (r: AttrReply)
    ensures Names(path, RootPath) ==>
      && r.ret == 0
      && IsDirectory(r.st) && Permissions(r.st) == MODE_0755 && NoOtherModeBits(r.st)
      && r.st.nlink == 3 && r.st.size == 0
    ensures Names(path, FilePath) ==>
      && r.ret == 0
      && IsRegularFile(r.st) && Permissions(r.st) == MODE_0777 && NoOtherModeBits(r.st)
      && r.st.nlink == 1
      && (capacity as int - r.st.size as int) % TWO_64 == 0
      && (capacity as int < TWO_63 ==> r.st.size as int == capacity as int)
    ensures !Names(path, RootPath) && !Names(path, FilePath) ==> r == AttrReply(-ENOENT, ZeroStat)
  {
    ServedPaths();
    ModeBits();
    if Matches(path, RootPath) then
      AttrReply(0, Stat(S_IFDIR | MODE_0755, 3, 0))
    else if Matches(path, FilePath) then
      AttrReply(0, Stat(S_IFREG | MODE_0777, 1, Uint64ToInt64(capacity)))
    else
      AttrReply(-ENOENT, ZeroStat)
  }

  /** The code `sfs_readdir` returns and the names it hands to the filler, in order. */
  datatype DirReply = DirReply(ret: int32, entries: seq<string>)

  /** `sfs_readdir`: only the root can be listed, and it holds exactly the virtual file. */
  function Readdir(path: string): (r: DirReply)
    ensures Names(path, RootPath) ==> r.ret == 0 && r.entries == [".", "..", VirtualFileName]
    ensures !Names(path, RootPath) ==> r.ret == -ENOENT && r.entries == []
  {
    if !Matches(path, RootPath) then DirReply(-ENOENT, [])
    else DirReply(0, [".", "..", FilePath[1..]])
  }

  /** The one name the root lists besides "." and ".." is the file getattr describes. */
  lemma ListedFileHasAttributes(capacity: uint64)
    ensures forall e | e in Readdir(RootPath).entries && e != "." && e != ".." ::
      && Getattr(RootPath + e, capacity).ret == 0
      && IsRegularFile(Getattr(RootPath + e, capacity).st)
      && (capacity as int < TWO_63 ==> Getattr(RootPath + e, capacity).st.size as int == capacity as int)
  {
  }

  // ---------------------------------------------------------------------------
  // The callbacks that answer with a fixed code
  // ---------------------------------------------------------------------------

  /** `sfs_access`: every access is granted. */
  function Access(path: string, mask: int32): (r: int32)
    ensures r == 0
  {
    0
  }

  /** `sfs_readlink`: symbolic links are not supported. */
  function Readlink(path: string, bufSize: uint64): (r: int32)
    ensures r == -ENOSYS
  {
    -ENOSYS
  }

  /** `sfs_mkdir`: the namespace is read-only. */
  function Mkdir(path: string, mode: uint32): (r: int32)
    ensures r == -EROFS
  {
    -EROFS
  }

  /** `sfs_unlink`: reports success and removes nothing. */
  function Unlink(path: string): (r: int32)
    ensures r == 0
  {
    0
  }

  /** `sfs_rmdir`: the namespace is read-only. */
  function Rmdir(path: string): (r: int32)
    ensures r == -EROFS
  {
    -EROFS
  }

  /** `sfs_rename`: the namespace is read-only. */
  function Rename(from: string, to: string): (r: int32)
    ensures r == -EROFS
  {
    -EROFS
  }

  /** `sfs_chmod`: reports success and changes nothing. */
  function Chmod(path: string, mode: uint32): (r: int32)
    ensures r == 0
  {
    0
  }

  /** `sfs_chown`: reports success and changes nothing. */
  function Chown(path: string, uid: uint32, gid: uint32): (r: int32)
    ensures r == 0
  {
    0
  }

  /** `sfs_open`: any path opens, whatever the flags. */
  function Open(path: string): (r: int32)
    ensures r == 0
  {
    0
  }

  /** `sfs_create`: delegates to `sfs_open`. */
  function Create(path: string, mode: uint32): (r: int32)
    ensures r == Open(path) && r == 0
  {
    Open(path)
  }

  /**
   Opening does not consult the namespace: a path getattr rejects still opens
   and can still be "created", and none of the fixed-code callbacks fails with
   ENOENT.
   */
  lemma OpenIgnoresNamespace(path: string, capacity: uint64, mode: uint32)
    ensures Getattr(path, capacity).ret == -ENOENT ==> Open(path) == 0 && Create(path, mode) == 0
    ensures Getattr(path, capacity).ret == -ENOENT ==>
      && Mkdir(path, mode) == Rmdir(path) == Rename(path, path) == -EROFS
      && Access(path, 0) == Unlink(path) == Chmod(path, mode) == Chown(path, 0, 0) == 0
  {
  }

  // ---------------------------------------------------------------------------
  // read and write: path gate, end-of-file test, trimming, reply code
  // ---------------------------------------------------------------------------

  /** The request `sfs_read` / `sfs_write` forwards to VirtualStorage. */
  datatype StorageCall = StorageCall(offset: uint64, size: uint32)

  /** Either the callback answers at once, or it forwards a request to storage. */
  datatype Plan = Answer(ret: int32) | Forward(call: StorageCall)

  /** What a read or write callback did: the storage request it made, if any, and its return code. */
  datatype IoOutcome = IoOutcome(forwarded: Option<StorageCall>, ret: int32)

  /** `offset64 + size64` stays below 2^64, so the callbacks' end-of-request sum is exact. */
  predicate NoWrap(offset64: uint64, size: uint64)
  {
    offset64 as int + size as int < TWO_64
  }

  /**
   The size `sfs_read` / `sfs_write` hand to storage for a request starting
   inside the file: `size64` is cut back to the rest of the file when the 64-bit
   (wrapping) sum `offset64 + size64` exceeds the capacity, then cast to 32 bits.
   */
  function TrimmedSize(offset64: uint64, size: uint64, capacity: uint64): (t: uint32)
    requires offset64 < capacity
    ensures t as int <= size as int
    ensures NoWrap(offset64, size) ==> offset64 as int + t as int <= capacity as int
    // trimmed: what is left of the file, up to the 32-bit cast
    ensures NoWrap(offset64, size) && offset64 as int + size as int > capacity as int ==>
      && (capacity as int - offset64 as int - t as int) % TWO_32 == 0
      && (capacity as int - offset64 as int < TWO_32 ==> t as int == capacity as int - offset64 as int)
    // untrimmed (a wrapping sum included): the request as given, up to the 32-bit cast
    ensures offset64 as int + size as int <= capacity as int || !NoWrap(offset64, size) ==>
      && (size as int - t as int) % TWO_32 == 0
      && (size as int < TWO_32 ==> t as int == size as int)
  {
    var size64 := if AddWrap64(offset64, size) > capacity then capacity - offset64 else size;
    TruncateToUint32(size64)
  }

  /**
   The part `sfs_read` and `sfs_write` share before they call storage: reject a
   foreign path, answer 0 at or past the end of the file, and otherwise forward
   the request with its size trimmed by TrimmedSize.
   */
  function PlanTransfer(path: string, size: uint64, offset: int64, capacity: uint64): (p: Plan)
    ensures !Names(path, FilePath) ==> p == Answer(-ENOENT)
    ensures Names(path, FilePath) && Int64ToUint64(offset) >= capacity ==> p == Answer(0)
    ensures Names(path, FilePath) && Int64ToUint64(offset) < capacity ==>
      p == Forward(StorageCall(Int64ToUint64(offset), TrimmedSize(Int64ToUint64(offset), size, capacity)))
    ensures p.Forward? ==>
      && p.call.offset == Int64ToUint64(offset)
      && p.call.offset < capacity
      && p.call.size as int <= size as int
    ensures p.Forward? && NoWrap(p.call.offset, size) ==>
      p.call.offset as int + p.call.size as int <= capacity as int
  {
    if !Matches(path, FilePath) then
      Answer(-ENOENT)
    else
      var offset64 := Int64ToUint64(offset);
      if offset64 >= capacity then Answer(0)
      else Forward(StorageCall(offset64, TrimmedSize(offset64, size, capacity)))
  }

  /**
   The code `sfs_read` / `sfs_write` return once storage has answered `err`:
   the requested (untrimmed) size on success, and a positive ENOMEM on failure.
   */
  function TransferReply(size: uint64, err: int32): (r: int32)
    ensures err == 0 ==> SameLow32(size as int, r as int)
    ensures err == 0 && size as int < TWO_31 ==> r as int == size as int
    ensures err != 0 ==> r == ENOMEM && r > 0
  {
    if err != 0 then ENOMEM else Uint64ToInt32(size)
  }

  /** Carries out a plan: answer at once, or forward and reply with TransferReply. */
  function Transfer(path: string, size: uint64, offset: int64, capacity: uint64,
                    storage: StorageCall -> int32): (r: IoOutcome)
    ensures var p := PlanTransfer(path, size, offset, capacity);
      && (p.Answer? ==> r == IoOutcome(None, p.ret))
      && (p.Forward? ==> r.forwarded == Some(p.call) && r.ret == TransferReply(size, storage(p.call)))
  {
    match PlanTransfer(path, size, offset, capacity)
    case Answer(ret) => IoOutcome(None, ret)
    case Forward(call) => IoOutcome(Some(call), TransferReply(size, storage(call)))
  }

  /** `sfs_read`, with `read` standing for `VirtualStorage::Read`. */
  function SfsRead(path: string, size: uint64, offset: int64, capacity: uint64,
                   read: StorageCall -> int32): (r: IoOutcome)
    ensures !Names(path, FilePath) ==> r == IoOutcome(None, -ENOENT)
    ensures Names(path, FilePath) && Int64ToUint64(offset) >= capacity ==> r == IoOutcome(None, 0)
    ensures Names(path, FilePath) && Int64ToUint64(offset) < capacity ==>
      r.forwarded == Some(StorageCall(Int64ToUint64(offset), TrimmedSize(Int64ToUint64(offset), size, capacity)))
    ensures r.forwarded.Some? ==>
      && r.forwarded.value.offset == Int64ToUint64(offset) < capacity
      && r.forwarded.value.size as int <= size as int
      && (NoWrap(r.forwarded.value.offset, size) ==>
            r.forwarded.value.offset as int + r.forwarded.value.size as int <= capacity as int)
    ensures r.forwarded.Some? && read(r.forwarded.value) == 0 ==> SameLow32(size as int, r.ret as int)
    ensures r.forwarded.Some? && read(r.forwarded.value) == 0 && size as int < TWO_31 ==>
      r.ret as int == size as int
    ensures r.forwarded.Some? && read(r.forwarded.value) != 0 ==> r.ret == ENOMEM
  {
    Transfer(path, size, offset, capacity, read)
  }

  /** `sfs_write`, with `write` standing for `VirtualStorage::Write`. */
  function SfsWrite(path: string, size: uint64, offset: int64, capacity: uint64,
                    write: StorageCall -> int32): (r: IoOutcome)
    ensures !Names(path, FilePath) ==> r == IoOutcome(None, -ENOENT)
    ensures Names(path, FilePath) && Int64ToUint64(offset) >= capacity ==> r == IoOutcome(None, 0)
    ensures Names(path, FilePath) && Int64ToUint64(offset) < capacity ==>
      r.forwarded == Some(StorageCall(Int64ToUint64(offset), TrimmedSize(Int64ToUint64(offset), size, capacity)))
    ensures r.forwarded.Some? ==>
      && r.forwarded.value.offset == Int64ToUint64(offset) < capacity
      && r.forwarded.value.size as int <= size as int
      && (NoWrap(r.forwarded.value.offset, size) ==>
            r.forwarded.value.offset as int + r.forwarded.value.size as int <= capacity as int)
    ensures r.forwarded.Some? && write(r.forwarded.value) == 0 ==> SameLow32(size as int, r.ret as int)
    ensures r.forwarded.Some? && write(r.forwarded.value) == 0 && size as int < TWO_31 ==>
      r.ret as int == size as int
    ensures r.forwarded.Some? && write(r.forwarded.value) != 0 ==> r.ret == ENOMEM
  {
    Transfer(path, size, offset, capacity, write)
  }

  /**
   The file size getattr reports is where reading stops: for a non-negative
   offset, `sfs_read` calls storage exactly when the offset lies before
   `st_size`.
   */
  lemma ReadStopsAtReportedSize(size: uint64, offset: int64, capacity: uint64, read: StorageCall -> int32)
    requires offset >= 0 && capacity as int < TWO_63
    ensures SfsRead(FilePath, size, offset, capacity, read).forwarded.Some? <==>
      offset < Getattr(FilePath, capacity).st.size
  {
  }

  /** Reading and writing the same request reach storage with the same range. */
  lemma ReadAndWriteForwardAlike(path: string, size: uint64, offset: int64, capacity: uint64,
                                 read: StorageCall -> int32, write: StorageCall -> int32)
    ensures SfsRead(path, size, offset, capacity, read).forwarded ==
            SfsWrite(path, size, offset, capacity, write).forwarded
  {
  }
}

=== FILE: stego_types.dfy ===
/**
 The fixed-width integers of the StegoDisk sources (src/utils/stego_types.h) and
 the C++ conversions between them that the FUSE callbacks rely on.

 Every conversion is characterised the way the language defines it: the result is
 the one value of the target type that is congruent to the input modulo 2^width.
 */
module StegoTypes {

  const TWO_31: int := 0x8000_0000
  const TWO_32: int := 0x1_0000_0000
  const TWO_63: int := 0x8000_0000_0000_0000
  const TWO_64: int := 0x1_0000_0000_0000_0000

  newtype uint32 = x: int | 0 <= x < 0x1_0000_0000
  newtype uint64 = x: int | 0 <= x < 0x1_0000_0000_0000_0000
  newtype int32 = x: int | -0x8000_0000 <= x < 0x8000_0000
  newtype int64 = x: int | -0x8000_0000_0000_0000 <= x < 0x8000_0000_0000_0000

  /** `a` and `b` agree in their low 32 bits (as two's-complement integers). */
  predicate SameLow32(a: int, b: int)
  {
    (a - b) % TWO_32 == 0
  }

  /** `uint64 u = i;` for a signed 64-bit `i` (an `off_t`). */
  function Int64ToUint64(i: int64): (u: uint64)
    ensures (u as int - i as int) % TWO_64 == 0
    ensures i >= 0 ==> u as int == i as int
    ensures i < 0 ==> u as int >= TWO_63
  {
    if i >= 0 then i as int as uint64 else (i as int + TWO_64) as uint64
  }

  /** `a + b` on two `uint64` values: the sum wraps around modulo 2^64. */
  function AddWrap64(a: uint64, b: uint64): (s: uint64)
    ensures (s as int - (a as int + b as int)) % TWO_64 == 0
    ensures a as int + b as int < TWO_64 ==> s as int == a as int + b as int
    ensures a as int + b as int >= TWO_64 ==> s < a && s < b
  {
    ((a as int + b as int) % TWO_64) as uint64
  }

  /** `static_cast<uint32>(x)` for a `uint64` x: the high 32 bits are dropped. */
  function TruncateToUint32(x: uint64): (t: uint32)
    ensures (x as int - t as int) % TWO_32 == 0
    ensures t as int <= x as int
    ensures x as int < TWO_32 ==> t as int == x as int
  {
    (x as int % TWO_32) as uint32
  }

  /** `static_cast<int>(x)` for a 64-bit unsigned x: two's-complement truncation to 32 bits. */
  function Uint64ToInt32(x: uint64): (i: int32)
    ensures SameLow32(x as int, i as int)
    ensures x as int < TWO_31 ==> i as int == x as int
  {
    var low := x as int % TWO_32;
    if low < TWO_31 then low as int32 else (low - TWO_32) as int32
  }

  /** Storing a `uint64` into a signed 64-bit field (an `off_t` such as `st_size`). */
  function Uint64ToInt64(x: uint64): (i: int64)
    ensures (x as int - i as int) % TWO_64 == 0
    ensures x as int < TWO_63 ==> i as int == x as int
    ensures x as int >= TWO_63 ==> i < 0
  {
    if x as int < TWO_63 then x as int as int64 else (x as int - TWO_64) as int64
  }
}

=== FILE: wrappers.dfy ===
/** The optional value used for "no carrier file" and "storage not called". */
module Wrappers {

  datatype Option<+T> = None | Some(value: T)
}
